=== FILE: README.md ===
# IELC homepage motion core, modelled in Dafny

The IELC homepage script (`main.js`) drives the site's motion: smooth
scrolling, a lagging cursor follower, a curtain that covers the page on
the way out and lifts on the way in, a horizontally pinned section and a
navigation bar that changes once the page is scrolled. Most of it is glue
around GSAP and Lenis. Underneath is a small decision core, and this
project models that core as pure Dafny functions and proves what it
guarantees:

- **Links** decides what a click on an `<a>` does. The link is passed
  through, smooth-scrolled as a same-page fragment, or intercepted for a
  covered navigation.
- **Transition** is the page-transition machine. Its state is the session
  flag `ielc-transition-active`, the `transition-mode` class, the curtain,
  the loader, the hero, the counters, the first-visit timeline and the
  running curtain tweens. A pure `Step(state, event)` takes `load`, a link
  click, a tween completing, a timeline step completing or `pageshow`. It
  returns the next state and the effects, in the order the listeners
  perform them.
- **TransitionTraces** runs the machine over whole event sequences. It
  holds the guarantees that span several events.
- **Counters** and **Numerals** cover the `.stat-number` counters. On
  arrival they take the literal `data-target`. On a first visit they end on
  the target rounded to an integer and written as decimal text.
- **Cursor** is the follower tick `pos += (mouse - pos) / 9`, over `real`.
- **Pin** is the pinned track's travel `-(scrollWidth - innerWidth + 100)`,
  its absolute end distance and the `innerWidth > 768` gate, over `int`.
- **Nav** is the `scrolled` class, present exactly when `scrollY > 50`.

The `transition-mode` class is set by an inline head script that is not
part of this model, so it is an input of `Transition.Init` and is not
derived from the flag. The `load` listener branches on the value read once
at start-up (line 121), kept as `modeAtStart`. The live class is kept
separately as `modeClass`, which the arrival load and a cache restore
remove.

In several places the code does something a reader might not expect.
The model follows the code:

- One might expect only same-site links to be covered. Every link that is
  not exempt is covered, including links to other sites and upper-case
  `MAILTO:` links, because the prefix tests are case-sensitive.
- One might expect a second click during a running cover to be ignored.
  It is not: both tweens run, and each navigates when it completes.
- One might expect the cursor follower, like the pinned section, to run
  only on wide screens. It runs at every width.
- One might expect the pin's end distance to be the negated travel. It is
  `Math.abs` of the travel, so a narrow track also gets a positive
  distance.
- One might expect the pin gate and the travel to read the same width.
  The gate reads it once at start-up, while the travel reads the live
  width on every refresh.
- One might expect a restore from the back/forward cache to end with the
  page revealed. A persisted `pageshow` does not cancel a cover tween
  still pending at suspension. When that tween ends, the browser is sent
  to its link while the restore's reveal is still running
  (`TransitionTraces.RestoreKeepsPendingCover`).
- One might expect every covered navigation to arrive with the flag set.
  A covered click made before `load` on an arrival page has its flag
  removed by that `load`. The navigation still happens, so the next page
  starts without the flag (`TransitionTraces.EarlyClickLosesFlag`).
- One might expect a covered click to navigate even when the flag cannot
  be stored. If `sessionStorage.setItem` throws, the listener has already
  prevented the default and stops, so the link does nothing
  (`TransitionTraces.BlockedClickStays`).

## Model

| member | source | states |
|---|---|---|
| Text.StartsWith | main.js:197 | `startsWith` is true exactly when the prefix fits and the string's first characters equal it, case-sensitively |
| Links.Classify | main.js:193-201 | a link is covered iff its href is present and non-empty, starts with none of `#`, `mailto:`, `tel:`, and its target is not `_blank`; it is a same-page scroll iff its href starts with `#`; a covered link navigates to its own href |
| Links.FragmentNeverCovered | main.js:27-29 | any href starting with `#` is handled as a same-page scroll, whatever its `target` |
| Links.ClassifyExamples | main.js:197 | relative, external and upper-case `MAILTO:` links are covered; `tel:`, `_blank`, empty and missing hrefs pass through; a `#` link with `_blank` still scrolls |
| Numerals.Value | main.js:183-185 | the number a digit string denotes is below 10 to the power of its length |
| Numerals.Render | main.js:183-185 | the text written for an integer is a canonical numeral that denotes that integer |
| Numerals.RenderValue | main.js:183-185 | a canonical numeral such as "1500" written back from its value is the same text |
| Numerals.ParseDecimal | main.js:183 | a target is read as digits optionally followed by `.` and digits; a parsed target is exactly its parts joined, and a canonical numeral parses as itself |
| Numerals.ParseDecimalComplete | main.js:183 | every decimal literal `digits` or `digits.digits`, canonical or not (such as "12.5" or "007"), is read back as exactly its whole and fractional parts |
| Numerals.RoundHalfUpIsNearest | main.js:185 | the snapped integer n of a decimal target v satisfies n - 1/2 <= v < n + 1/2, which is `Math.round(v)` for v held exactly |
| Counters.HasTarget | main.js:135 | every target the count-up can read as a decimal also passes the arrival's `if (target)` test |
| Counters.ArrivalText | main.js:133-136 | a counter with a non-empty `data-target` shows exactly that text; a counter with none keeps its text |
| Counters.ArriveAll | main.js:133-136 | every counter, and no other, is updated as `ArrivalText` says, in place |
| Counters.CountUpEnd | main.js:182-188 | a counter's count-up ends on the canonical decimal text of its rounded target; a missing or non-numeric target leaves it unchanged |
| Counters.CountUpAll | main.js:182-188 | the count-up applies to every counter in place |
| Counters.EntryPathsAgreeOnCounter | main.js:133-136 | for a canonical integer target both entry paths leave exactly the target text |
| Counters.DecimalTargetEnds | main.js:133-136 | for every decimal literal target the first visit ends on its rounded value written as a numeral, while the arrival shows the literal as written |
| Counters.FractionalTargetExample | main.js:182-185 | target "12.5" ends as "13" after the count-up but shows "12.5" on arrival |
| Transition.Init | main.js:120-121 | the start-up page: the class read once at start-up and the live class agree, the flag and counters are as given, the loader exists iff the page has one, and nothing has been written yet (curtain and loader at their CSS defaults, no timeline, no tweens) |
| Transition.LiftedLoader | main.js:130 | the loader is lifted to -100% only if the page has one |
| Transition.Arrive | main.js:125-150 | an arrival load leaves the flag absent, the class removed, the curtain at 0 with one reveal tween to -100% added, the loader lifted if present, the hero shown, and counters with targets at their target text, others unchanged |
| Transition.ArriveOrder | main.js:128-150 | the curtain is set to 0 and the class removed before the reveal starts; the flag is removed after |
| Transition.ArriveCounterWrites | main.js:133-136 | each counter with a non-empty target gets exactly its target text, and no other counter is written |
| Transition.ArriveEffectKinds | main.js:125-150 | an arrival load never navigates, never sets the flag and finishes no timeline step |
| Transition.CounterEffectsComplete | main.js:133-136 | every counter with a target is written |
| Transition.CounterEffectsSound | main.js:133-136 | only counters with a target are written, and only with their target's text |
| Transition.FirstVisit | main.js:152-189 | a first-visit load starts the five-step timeline and changes nothing else; it neither reads into nor writes the flag |
| Transition.ApplyStep | main.js:156-188 | each timeline step changes only its own element (logo stroke, logo fill, loader, hero, counters) and never the flag, class or curtain |
| Transition.AdvanceIntro | main.js:156-188 | completing a step removes exactly the first unfinished step and reports it; with none left nothing happens |
| Transition.JumpEffects | main.js:27-38 | a same-page click always suppresses the default first, and scrolls iff the anchor is found; it never navigates, writes the flag, finishes a step or moves the curtain |
| Transition.CoverEffects | main.js:201-216 | a covered click suppresses the default, sets the flag to "true" before parking the curtain at 100%, parks it before the cover tween starts, and does not navigate itself |
| Transition.ClickLink | main.js:193-216 | pass-through clicks change nothing; `#` clicks change no state and perform the jump's effects; a covered click whose flag write throws only prevents the default and reports the error; otherwise it sets the flag to "true", parks the curtain at 100%, adds one cover tween to 0 that navigates to the link's href, changes nothing else, and performs the cover's effects |
| Transition.FinishTween | main.js:208-215 | a finished tween leaves the curtain field at its end and is removed from the running tweens; a cover tween then navigates to its href, and nothing else does |
| Transition.Restore | main.js:220-241 | a persisted `pageshow` removes the class, sets the curtain to 0 before the reveal, lifts the loader if present and shows the hero, and leaves flag, counters and timeline alone; a non-persisted one changes nothing |
| Transition.Step | main.js:124-241 | no event changes the start-up class value, which elements exist, or how many counters there are |
| Transition.StepFlag | main.js:149-204 | only a covered click whose flag write succeeds sets the flag, and only an arrival load removes it; an arrival load leaves it absent whether or not it was present; any other click changes nothing and does not navigate |
| Transition.StepNavigation | main.js:206-215 | a navigation happens only when a tween whose completion navigates finishes, to its href; only a covered click adds such a tween; if all such tweens go to the covering position, the curtain field holds that position at the moment of navigation, and this is preserved |
| Transition.StepTweens | main.js:193-241 | every tween an event starts either navigates nowhere or is the cover tween of a covered click whose flag write succeeded, to that link's href; a finished tween starts none |
| Transition.StepIntro | main.js:152-189 | only a first-visit load starts the timeline; steps finish one at a time in queue order; no other event touches it |
| TransitionTraces.RunAppend | main.js:119-241 | running two event sequences in turn equals running their concatenation |
| TransitionTraces.NavigationFollowsCover | main.js:201-215 | over any page lifetime from a page with no navigating tween, every navigation is preceded by a flag write followed by a cover tween to the same href, and every navigating tween still running tweens to the covering position |
| TransitionTraces.CurtainCoversAtNavigation | main.js:206-215 | in any run from a page with no navigating tween, when the tween that navigates is the last curtain tween started and still running, the curtain covers the viewport at that moment and only the curtain tweens started before it keep running |
| TransitionTraces.FinishedStepsAppend | main.js:156-188 | the steps finished over two runs are those of the first followed by those of the second |
| TransitionTraces.IntroPlaysInOrder | main.js:156-188 | with the single `load` the browser fires, the finished timeline steps are always a prefix of stroke, fill, loader, hero, counters; on a first visit, finished plus pending is exactly that sequence |
| TransitionTraces.FirstVisitEnd | main.js:152-188 | after the timeline finishes, the loader is lifted, the hero shown, the logo filled, counters at their snapped ends; flag and curtain are untouched |
| TransitionTraces.ArrivalEnd | main.js:125-150 | after the reveal finishes, the curtain is at -100%, the class gone, the flag absent, the loader lifted, the hero shown and counters at their targets |
| TransitionTraces.EntryPathsAgree | main.js:124-190 | with canonical integer targets, a finished first visit and a finished arrival show the same loader, hero and counter texts; only the arrival consumes the flag |
| TransitionTraces.RestoreReveals | main.js:220-241 | once the reveal of a restored page finishes, its curtain is lifted, the class gone, the loader lifted and the hero shown; flag, counters and the tweens pending at suspension are as they were, so those tweens keep running |
| TransitionTraces.RestoreKeepsPendingCover | main.js:208-241 | in a state where every navigating tween goes to the covering position, a restore does not cancel a pending one: when it ends the browser navigates to its link, and the restore's reveal is still running |
| TransitionTraces.BlockedClickStays | main.js:201-204 | a covered click whose flag write throws leaves the flag as it was, and nothing that completes afterwards navigates |
| TransitionTraces.EarlyClickLosesFlag | main.js:124-215 | on an arrival page, any covered click before `load` still navigates to its link, but the flag is then absent |
| Cursor.Approach | main.js:55-56 | one tick leaves the follower coordinate between its old value and the pointer, with exactly 8/9 of the gap left |
| Cursor.MouseMove | main.js:74-77 | a pointer move changes only the recorded pointer position |
| Cursor.Tick | main.js:54-71 | per tick the dot is drawn exactly at the pointer, the follower at its new position, which is between the old one and the pointer on both axes with 8/9 of the gap left |
| Cursor.Ticks | main.js:51-56 | repeated ticks never move the pointer |
| Cursor.TicksFollow | main.js:51-56 | the follower's two coordinates after n ticks are each the one-axis approach repeated n times: the axes never interact |
| Cursor.FollowGap | main.js:55-56 | on one axis the gap to a still pointer after n ticks is (8/9)^n of the starting gap |
| Cursor.TicksGap | main.js:51-56 | with a still pointer the gap after n ticks is (8/9)^n of the starting gap on each axis |
| Cursor.FollowBetween | main.js:55-56 | on one axis the follower never leaves the interval between its start and the pointer |
| Cursor.NoOvershoot | main.js:55-56 | for any number of ticks the follower stays between where it started and the pointer |
| Cursor.PowKeepRate | main.js:55-56 | (8/9)^n times (8 + n) is at most 8 |
| Cursor.FollowConverges | main.js:51-56 | with a still pointer the gap on one axis after n ticks is at most 8/(8+n) of the starting gap, so (with Cursor.TicksFollow, on both axes) the follower converges |
| Cursor.ArrivedStaysPut | main.js:55-56 | a follower already on the pointer does not move |
| Pin.ScrollAmount | main.js:291-294 | full travel puts the track's right edge 100 px inside the viewport's right edge |
| Pin.EndDistance | main.js:305 | the pinned scroll distance is the travel's absolute value, never negative |
| Pin.Measure | main.js:291-309 | one refresh measures the travel and the matching end distance from the current widths |
| Pin.Setup | main.js:288-311 | the pin is registered iff the start-up width exceeds 768 and the track exists; the travel then uses the live width and the end is its absolute value |
| Pin.WideTrackScrollsOneToOne | main.js:293-305 | a track at least as wide as the viewport moves left by at least 100 px, over a scroll distance equal to that travel |
| Pin.NarrowTrackMovesRight | main.js:293-305 | a track narrower than the viewport minus 100 px is pushed right, and the end distance stays positive |
| Nav.OnScroll | main.js:317-323 | after a scroll event the bar has `scrolled` iff `scrollY > 50`, and its other classes are unchanged |
| Nav.OnScrollNav | main.js:315-317 | with no `.nav` on the page nothing listens; otherwise as `OnScroll` |
| Nav.OnScrollIdempotent | main.js:317-323 | repeating a scroll event at the same offset changes nothing |
| Nav.LastScrollDecides | main.js:317-323 | after any non-empty run of scroll events the classes depend only on the last offset |

## Left out

- Lenis smooth scrolling (lines 7-24) and `lenis.scrollTo` are library behaviour: the easing curve, durations and the `requestAnimationFrame` loop. A same-page click records a `ScrollTo` effect and nothing about how the scroll converges.
- GSAP tween interpolation, eases, delays and staggers are library behaviour. A curtain or loader position is the value the script last set or a tween last reached. Intermediate frames are not modelled.
- Transition.AdvanceIntro: the timeline's overlapping offsets (`-=0.6`, `-=1.0`) let a step start before the previous one ends. The model keeps only the order in which steps start and finish, which these offsets do not change.
- Counters.CountUpEnd: only targets made of digits, optionally followed by `.` and digits, are modelled. How GSAP tweens other strings (signs, exponents, separators, surrounding text) is library behaviour. Such targets, and a missing target, leave the text unchanged in the model.
- Transition.Step: the browser fires `load` once per document. Traces with more than one `Load` are allowed, and `TransitionTraces.IntroPlaysInOrder` requires at most one.
- Links.Classify: the anchor listener is attached at start-up to links whose `href` then starts with `#`. Attributes that change after start-up are not modelled.
- Transition.ClickLink: whether `document.querySelector(href)` finds an element, finds nothing or throws on an invalid selector depends on the document. It is an input (`AnchorLookup`), and the throw is a `SelectorError` effect. Whether `sessionStorage.setItem` throws (storage disabled or full) depends on the browser. It is an input too (`StorageWrite`), and that throw is a `StorageError` effect.
- Transition.FinishTween: overlapping curtain tweens are not modelled. GSAP 3 tweens do not overwrite each other by default, so while two curtain tweens run, the one started later draws last. The curtain field is the end of the tween that finished last. A second covered click, an early click followed by the arrival reveal, or a restore's reveal can be running when a cover ends.
- Transition.StepNavigation: its curtain clause is about the curtain field, which matches the page only when no later curtain tween is still running (see `Transition.FinishTween` above).
- TransitionTraces.CurtainCoversAtNavigation: states the covering curtain only when the navigating tween is the last curtain tween still running. When a later one runs, the page shows that one, which the model does not track.
- TransitionTraces.RestoreKeepsPendingCover: its `At(Covering)` clause is the curtain field. On the page the restore's reveal, still running, is what shows.
- Transition.Init: a page without a `.page-transition` curtain or without hero spans is not modelled. The curtain is always present, and the hero is one visibility bit.
- Counters.CountUpEnd: the target is read and rounded in exact decimal arithmetic, not as an IEEE double. Literals with more significant digits than a double holds (such as "0.49999999999999999", read as 0.5, or "9007199254740993") and values of 10^21 or more (written "1e+21") end differently in the browser.
- Numerals.Render: writes exact decimal digits for every natural number, while `String(n)` agrees only below 2^53 and switches to exponent notation from 10^21.
- Cursor.Approach: coordinates are reals, not IEEE doubles, so rounding in `(mouse - pos) / 9` is not modelled.
- The cursor `active` class on hover (lines 79-91) is a plain class toggle with no state.
- The magnetic hover effect (lines 94-117) is floating-point bounding-box arithmetic fed into a tween.
- The scroll-triggered reveals for paragraphs, milestones and the parallax image (lines 243-285) are scheduled by ScrollTrigger, whose semantics live in the library.
- The pinned section's ScrollTrigger pinning and scrubbing (lines 302-310) are library behaviour. Only the travel, the end distance and the gate are modelled.
- The mobile menu (lines 326-367) is a class toggle with no state machine.
- The inline head script that turns the flag into the `transition-mode` class is not part of this model. Its result is the `modeClass` input of `Transition.Init`.
- `vite.config.js` is build configuration with no runtime logic.

=== FILE: counters.dfy ===
/** The `.stat-number` counters: displayed text plus the `data-target`
    attribute (main.js lines 133-136 and 182-188). */
module Counters {

  import opened Optional
  import opened Numerals

  datatype Counter = Counter(text: string, target: Option<string>)

  /** `if (target)`: the attribute is present and not the empty string.
      Every target the count-up can read passes this test. */
  predicate HasTarget(c: Counter): (b: bool)
    ensures c.target.Some? && ParseDecimal(c.target.value).Some? ==> b
  {
    c.target.Some? && c.target.value != ""
  }

  /** Arrival path (lines 133-136): a counter with a non-empty target shows
      that exact text; every other counter keeps its text. */
  function ArrivalText(c: Counter): (r: Counter)
    ensures r.target == c.target
    ensures HasTarget(c) ==> r.text == c.target.value
    ensures !HasTarget(c) ==> r == c
  {
    if HasTarget(c) then c.(text := c.target.value) else c
  }

  function ArriveAll(cs: seq<Counter>): (rs: seq<Counter>)
    ensures |rs| == |cs|
    ensures forall i :: 0 <= i < |cs| ==> rs[i] == ArrivalText(cs[i])
  {
    if cs == [] then [] else [ArrivalText(cs[0])] + ArriveAll(cs[1..])
  }

  /** First-visit path (lines 182-188): the count-up tween ends on the
      target's value snapped to a whole number (`Math.round`) and written
      as decimal text, all in exact decimal arithmetic. A target that is
      absent or not a plain decimal literal leaves the text as it was. */
  function CountUpEnd(c: Counter): (r: Counter)
    ensures r.target == c.target
    ensures r.text == c.text || Canonical(r.text)
    ensures c.target.Some? && ParseDecimal(c.target.value).Some? ==>
              Canonical(r.text) && Value(r.text) == RoundHalfUp(ParseDecimal(c.target.value).value)
    ensures c.target.None? || ParseDecimal(c.target.value).None? ==> r == c
  {
    match c.target
    case None => c
    case Some(t) =>
      match ParseDecimal(t)
      case None => c
      case Some(d) => c.(text := Render(RoundHalfUp(d)))
  }

  function CountUpAll(cs: seq<Counter>): (rs: seq<Counter>)
    ensures |rs| == |cs|
    ensures forall i :: 0 <= i < |cs| ==> rs[i] == CountUpEnd(cs[i])
  {
    if cs == [] then [] else [CountUpEnd(cs[0])] + CountUpAll(cs[1..])
  }

  /** A counter whose target is a canonical integer such as "1500" ends
      showing exactly that text on both entry paths. */
  lemma EntryPathsAgreeOnCounter(c: Counter)
    requires c.target.Some? && Canonical(c.target.value)
    ensures CountUpEnd(c) == ArrivalText(c)
    ensures CountUpEnd(c).text == c.target.value
  {
    RenderValue(c.target.value);
  }

  /** For any decimal literal target, whole or fractional, the first visit
      ends on its rounded value written as a numeral, while the arrival
      shows the literal as written. */
  lemma DecimalTargetEnds(c: Counter, d: Decimal)
    requires d.Valid() && c.target == Some(d.Text())
    ensures CountUpEnd(c).text == Render(RoundHalfUp(d))
    ensures ArrivalText(c).text == d.Text()
  {
    ParseDecimalComplete(d);
  }

  /** A target with a fractional part ends on the nearest whole number on
      the first visit but is shown verbatim on arrival. */
  lemma FractionalTargetExample()
    ensures CountUpEnd(Counter("0", Some("12.5"))).text == "13"
    ensures ArrivalText(Counter("0", Some("12.5"))).text == "12.5"
  {
    var d := Decimal("12", "5");
    assert d.Text() == "12.5";
    DecimalTargetEnds(Counter("0", Some("12.5")), d);
    NumeralExamples();
  }

  lemma NumeralExamples()
    ensures Value("12") == 12 && Render(13) == "13"
  {
    assert "12"[..1] == "1";
    assert Render(1) == "1";
  }
}

=== FILE: cursor.dfy ===
/** The custom cursor (main.js lines 43-77): a dot that sits on the
    pointer and a follower that closes 1/9 of the remaining gap on every
    tick of a repeating 16 ms tween. Coordinates are reals, standing for
    JavaScript numbers without their rounding. */
module Cursor {

  import opened Optional

  datatype Point = Point(x: real, y: real)

  /** The divisor of lines 55-56. */
  const Lag: real := 9.0

  /** The share of the gap left after one tick. */
  const Keep: real := 8.0 / 9.0

  datatype CursorState = CursorState(
    mouse: Point,               // mouseX, mouseY: last pointer position
    pos: Point,                 // posX, posY: the follower's smoothed position
    dot: Option<Point>,         // left/top last written to '.cursor'
    follower: Option<Point>)    // left/top last written to '.cursor-follower'

  /** `pos += (target - pos) / 9`: the new position lies between the old
      one and the target, with exactly 8/9 of the gap left. */
  function Approach(pos: real, target: real): (r: real)
    ensures pos <= target ==> pos <= r <= target
    ensures target <= pos ==> target <= r <= pos
    ensures target - r == Keep * (target - pos)
  {
    pos + (target - pos) / Lag
  }

  /** `mousemove` (lines 74-77): only the raw pointer position changes. */
  function MouseMove(s: CursorState, x: real, y: real): (r: CursorState)
    ensures r.mouse == Point(x, y)
    ensures r.(mouse := s.mouse) == s
  {
    s.(mouse := Point(x, y))
  }

  /** One `onRepeat` (lines 54-71): the follower approaches the pointer, is
      drawn where it now is, and the dot is drawn on the raw pointer. */
  function Tick(s: CursorState): (r: CursorState)
    ensures r.mouse == s.mouse
    ensures r.dot == Some(s.mouse)
    ensures r.follower == Some(r.pos)
    ensures s.mouse.x - r.pos.x == Keep * (s.mouse.x - s.pos.x)
    ensures s.mouse.y - r.pos.y == Keep * (s.mouse.y - s.pos.y)
    ensures s.pos.x <= s.mouse.x ==> s.pos.x <= r.pos.x <= s.mouse.x
    ensures s.mouse.x <= s.pos.x ==> s.mouse.x <= r.pos.x <= s.pos.x
    ensures s.pos.y <= s.mouse.y ==> s.pos.y <= r.pos.y <= s.mouse.y
    ensures s.mouse.y <= s.pos.y ==> s.mouse.y <= r.pos.y <= s.pos.y
  {
    var p := Point(Approach(s.pos.x, s.mouse.x), Approach(s.pos.y, s.mouse.y));
    CursorState(s.mouse, p, Some(s.mouse), Some(p))
  }

  /** `n` ticks with the pointer held still. */
  function Ticks(s: CursorState, n: nat): (r: CursorState)
    ensures r.mouse == s.mouse
  {
    if n == 0 then s else Tick(Ticks(s, n - 1))
  }

  function Pow(b: real, n: nat): (r: real) {
    if n == 0 then 1.0 else b * Pow(b, n - 1)
  }

  lemma {:induction false} PowKeepBounds(n: nat)
    ensures 0.0 < Pow(Keep, n) <= 1.0
  {
    if n > 0 {
      PowKeepBounds(n - 1);
    }
  }

  /** One coordinate of the follower after `n` ticks towards a still
      `target`. */
  function Follow(pos: real, target: real, n: nat): (r: real) {
    if n == 0 then pos else Approach(Follow(pos, target, n - 1), target)
  }

  /** The follower's two coordinates move independently. */
  lemma {:induction false} TicksFollow(s: CursorState, n: nat)
    ensures Ticks(s, n).pos == Point(Follow(s.pos.x, s.mouse.x, n), Follow(s.pos.y, s.mouse.y, n))
  {
    if n > 0 {
      TicksFollow(s, n - 1);
    }
  }

  /** On one axis the gap after `n` ticks is (8/9)^n of the starting gap. */
  lemma {:induction false} FollowGap(pos: real, target: real, n: nat)
    ensures target - Follow(pos, target, n) == Pow(Keep, n) * (target - pos)
  {
    if n > 0 {
      FollowGap(pos, target, n - 1);
      var before := Follow(pos, target, n - 1);
      ScaledTwice(target - Follow(pos, target, n), target - before, target - pos, Pow(Keep, n - 1));
    }
  }

  lemma ScaledTwice(g2: real, g1: real, g0: real, p: real)
    requires g2 == Keep * g1 && g1 == p * g0
    ensures g2 == (Keep * p) * g0
  {
  }

  /** With the pointer still, the gap after `n` ticks is (8/9)^n of the
      starting gap on each axis: the follower never drifts. */
  lemma TicksGap(s: CursorState, n: nat)
    ensures s.mouse.x - Ticks(s, n).pos.x == Pow(Keep, n) * (s.mouse.x - s.pos.x)
    ensures s.mouse.y - Ticks(s, n).pos.y == Pow(Keep, n) * (s.mouse.y - s.pos.y)
  {
    TicksFollow(s, n);
    FollowGap(s.pos.x, s.mouse.x, n);
    FollowGap(s.pos.y, s.mouse.y, n);
  }

  /** On one axis the follower stays between its start and the target. */
  lemma FollowBetween(pos: real, target: real, n: nat)
    ensures pos <= target ==> pos <= Follow(pos, target, n) <= target
    ensures target <= pos ==> target <= Follow(pos, target, n) <= pos
  {
    FollowGap(pos, target, n);
    PowKeepBounds(n);
    ScaledGap(target - pos, Pow(Keep, n));
  }

  /** However many ticks pass, the follower stays between where it started
      and the pointer: it never overshoots. */
  lemma NoOvershoot(s: CursorState, n: nat)
    ensures s.pos.x <= s.mouse.x ==> s.pos.x <= Ticks(s, n).pos.x <= s.mouse.x
    ensures s.mouse.x <= s.pos.x ==> s.mouse.x <= Ticks(s, n).pos.x <= s.pos.x
    ensures s.pos.y <= s.mouse.y ==> s.pos.y <= Ticks(s, n).pos.y <= s.mouse.y
    ensures s.mouse.y <= s.pos.y ==> s.mouse.y <= Ticks(s, n).pos.y <= s.pos.y
  {
    TicksFollow(s, n);
    FollowBetween(s.pos.x, s.mouse.x, n);
    FollowBetween(s.pos.y, s.mouse.y, n);
  }

  lemma ScaledGap(d: real, p: real)
    requires 0.0 < p <= 1.0
    ensures d >= 0.0 ==> 0.0 <= p * d <= d
    ensures d <= 0.0 ==> d <= p * d <= 0.0
  {
  }

  /** The gap shrinks at least as fast as 8 / (8 + n): the follower
      converges on a still pointer. */
  lemma {:induction false} PowKeepRate(n: nat)
    ensures Pow(Keep, n) * (8.0 + n as real) <= 8.0
  {
    if n > 0 {
      PowKeepRate(n - 1);
      PowKeepBounds(n - 1);
      var p := Pow(Keep, n - 1);
      var m := (n - 1) as real;
      assert Pow(Keep, n) == Keep * p;
      assert Keep * p * (8.0 + n as real) == Keep * (p * (8.0 + m) + p);
      assert p * (8.0 + m) + p <= 9.0;
    }
  }

  function Abs(x: real): (r: real) {
    if x < 0.0 then -x else x
  }

  /** With the pointer still, the gap on each axis after `n` ticks is at
      most 8 / (8 + n) of the starting gap: the follower converges. */
  lemma FollowConverges(pos: real, target: real, n: nat)
    ensures Abs(target - Follow(pos, target, n)) * (8.0 + n as real) <= 8.0 * Abs(target - pos)
  {
    FollowGap(pos, target, n);
    PowKeepBounds(n);
    PowKeepRate(n);
    ScaledRate(target - pos, Pow(Keep, n), 8.0 + n as real);
  }

  lemma ScaledRate(d: real, p: real, k: real)
    requires 0.0 < p && k > 0.0 && p * k <= 8.0
    ensures Abs(p * d) * k <= 8.0 * Abs(d)
  {
    assert Abs(p * d) == p * Abs(d);
    assert p * Abs(d) * k == (p * k) * Abs(d);
  }

  /** A held-still pointer leaves the follower where it is once it has
      arrived: a stalled target gives a motionless state. */
  lemma ArrivedStaysPut(s: CursorState)
    requires s.pos == s.mouse
    ensures Tick(s).pos == s.pos
  {
  }
}

=== FILE: links.dfy ===
/** How a click on an `<a>` element is handled (main.js lines 27-41 and
    193-201). Two listeners may see the same click: the anchor listener,
    registered on links whose `href` starts with '#', and the navigation
    listener, registered on every link. */
module Links {

  import opened Optional
  import opened Text

  /** The two attributes the listeners read; `None` is an absent attribute
      (`getAttribute` returning `null`). */
  datatype Link = Link(href: Option<string>, target: Option<string>)

  /** What happens to the click. */
  datatype LinkAction =
    | PassThrough             // no listener touches the event: the browser follows the link
    | SamePage(selector: string) // anchor listener: default suppressed, smooth scroll to the selector
    | Cover(href: string)     // navigation listener: covered navigation to href

  /** Whether the navigation listener returns early (line 197): no href,
      an empty one, a fragment, `mailto:` or `tel:`, or a new tab. */
  predicate LeftAlone(l: Link) {
    || l.href.None?
    || l.href.value == []
    || "#" <= l.href.value
    || "mailto:" <= l.href.value
    || "tel:" <= l.href.value
    || l.target == Some("_blank")
  }

  function Classify(l: Link): (r: LinkAction)
    ensures r.Cover? <==> !LeftAlone(l)
    ensures r.Cover? ==> l.href == Some(r.href)
    ensures r.SamePage? <==> l.href.Some? && "#" <= l.href.value
    ensures r.SamePage? ==> l.href == Some(r.selector)
  {
    match l.href
    case None => PassThrough
    case Some(h) =>
      if StartsWith(h, "#") then SamePage(h)
      else if h == [] || StartsWith(h, "mailto:") || StartsWith(h, "tel:") || l.target == Some("_blank")
      then PassThrough
      else Cover(h)
  }

  /** A same-page link is never covered, whatever its `target`; a link
      is only ever passed through or covered when it is not a fragment. */
  lemma FragmentNeverCovered(l: Link)
    requires l.href.Some? && |l.href.value| >= 1 && l.href.value[0] == '#'
    ensures Classify(l) == SamePage(l.href.value)
  {
    assert l.href.value[..1] == "#";
  }

  /** The prefixes are matched case-sensitively, and a `_blank` target
      only exempts non-fragment links. */
  lemma ClassifyExamples()
    ensures Classify(Link(Some("ec.html"), None)) == Cover("ec.html")
    ensures Classify(Link(Some("MAILTO:info@example.org"), None)) == Cover("MAILTO:info@example.org")
    ensures Classify(Link(Some("https://example.org/"), None)) == Cover("https://example.org/")
    ensures Classify(Link(Some("tel:+880"), None)) == PassThrough
    ensures Classify(Link(Some("ec.html"), Some("_blank"))) == PassThrough
    ensures Classify(Link(Some("ec.html"), Some("_self"))) == Cover("ec.html")
    ensures Classify(Link(Some("#about"), Some("_blank"))) == SamePage("#about")
    ensures Classify(Link(Some(""), None)) == PassThrough
    ensures Classify(Link(None, None)) == PassThrough
  {
    assert "MAILTO:info@example.org"[0] != "mailto:"[0];
    assert "https://example.org/"[0] != "#"[0];
    assert "https://example.org/"[0] != "mailto:"[0];
    assert "https://example.org/"[0] != "tel:"[0];
  }
}

=== FILE: nav.dfy ===
/** The navigation bar's 'scrolled' class (main.js lines 314-324). */
module Nav {

  import opened Optional

  /** Scroll offset, in pixels, past which the bar counts as scrolled. */
  const Threshold: real := 50.0

  const Scrolled: string := "scrolled"

  /** One `scroll` event on the bar's class list: the class is present
      exactly when `scrollY > 50`, and every other class is untouched. */
  function OnScroll(classes: set<string>, scrollY: real): (r: set<string>)
    ensures Scrolled in r <==> scrollY > Threshold
    ensures r - {Scrolled} == classes - {Scrolled}
  {
    if scrollY > Threshold then classes + {Scrolled} else classes - {Scrolled}
  }

  /** The listener exists only when the page has a '.nav'. */
  function OnScrollNav(nav: Option<set<string>>, scrollY: real): (r: Option<set<string>>)
    ensures r.Some? <==> nav.Some?
    ensures r.Some? ==> (Scrolled in r.value <==> scrollY > Threshold)
    ensures r.Some? ==> r.value - {Scrolled} == nav.value - {Scrolled}
  {
    match nav
    case None => None
    case Some(c) => Some(OnScroll(c, scrollY))
  }

  /** A run of scroll events, oldest first. */
  function OnScrolls(classes: set<string>, ys: seq<real>): (r: set<string>) {
    if ys == [] then classes else OnScroll(OnScrolls(classes, ys[..|ys| - 1]), ys[|ys| - 1])
  }

  /** Repeating an event changes nothing. */
  lemma OnScrollIdempotent(classes: set<string>, y: real)
    ensures OnScroll(OnScroll(classes, y), y) == OnScroll(classes, y)
  {
  }

  /** After any non-empty run of scroll events the class list depends only
      on the last offset: the history is forgotten. */
  lemma {:induction false} LastScrollDecides(classes: set<string>, ys: seq<real>)
    requires |ys| > 0
    ensures OnScrolls(classes, ys) == OnScroll(classes, ys[|ys| - 1])
  {
    if |ys| > 1 {
      var init := ys[..|ys| - 1];
      LastScrollDecides(classes, init);
      var mid := OnScrolls(classes, init);
      assert mid - {Scrolled} == classes - {Scrolled};
      SameBaseSameResult(mid, classes, ys[|ys| - 1]);
    }
  }

  lemma SameBaseSameResult(a: set<string>, b: set<string>, y: real)
    requires a - {Scrolled} == b - {Scrolled}
    ensures OnScroll(a, y) == OnScroll(b, y)
  {
    if y > Threshold {
      assert a + {Scrolled} == (a - {Scrolled}) + {Scrolled};
      assert b + {Scrolled} == (b - {Scrolled}) + {Scrolled};
    }
  }
}

=== FILE: numerals.dfy ===
/** Decimal numerals as the counters display them: digit strings, the
    number they denote, the canonical text of a number, and the half-up
    rounding that `snap: { innerHTML: 1 }` applies to a decimal target. */
module Numerals {

  import opened Optional

  predicate IsDigit(c: char) {
    '0' <= c <= '9'
  }

  predicate AllDigits(s: string) {
    forall i :: 0 <= i < |s| ==> IsDigit(s[i])
  }

  /** Plain decimal notation for a natural number: digits, and no leading
      zero unless the number is zero itself. This is what `String(n)`
      writes for integers below 2^53; larger ones lose precision in a
      double and from 10^21 on are written with an exponent. */
  predicate Canonical(s: string) {
    && |s| >= 1
    && AllDigits(s)
    && (s[0] == '0' ==> |s| == 1)
  }

  function DigitValue(c: char): (d: nat)
    requires IsDigit(c)
    ensures d < 10
  {
    c as int - '0' as int
  }

  function DigitChar(d: nat): (c: char)
    requires d < 10
    ensures IsDigit(c) && DigitValue(c) == d
  {
    ('0' as int + d) as char
  }

  function Pow10(k: nat): (p: nat)
    ensures p >= 1
  {
    if k == 0 then 1 else 10 * Pow10(k - 1)
  }

  /** The number a digit string denotes, read most significant digit first. */
  function Value(s: string): (n: nat)
    requires AllDigits(s)
    ensures n < Pow10(|s|)
  {
    if |s| == 0 then 0
    else Value(s[..|s| - 1]) * 10 + DigitValue(s[|s| - 1])
  }

  /** Value of a digit string split after its leading digit. */
  lemma {:induction false} ValueFront(s: string)
    requires AllDigits(s) && |s| >= 1
    ensures Value(s) == DigitValue(s[0]) * Pow10(|s| - 1) + Value(s[1..])
  {
    if |s| > 1 {
      var n := |s|;
      var init := s[..n - 1];
      var t := s[1..];
      ValueFront(init);
      assert init[1..] == t[..|t| - 1];
      assert init[0] == s[0];
      assert t[|t| - 1] == s[n - 1];
      var d0 := DigitValue(s[0]);
      var q := Pow10(n - 2);
      var mid := Value(init[1..]);
      var last := DigitValue(s[n - 1]);
      Shift(Value(s), Value(init), Value(t), d0, q, mid, last, Pow10(n - 1));
    }
  }

  lemma Shift(vs: nat, vi: nat, vt: nat, d: nat, q: nat, m: nat, e: nat, p: nat)
    requires vi == d * q + m && vt == m * 10 + e && vs == vi * 10 + e && p == q * 10
    ensures vs == d * p + vt
  {
    assert (d * q + m) * 10 + e == d * (q * 10) + (m * 10 + e);
  }

  /** A digit string that does not start with '0' is at least 10^(length-1). */
  lemma {:induction false} LeadingDigitBound(s: string)
    requires AllDigits(s) && |s| >= 1 && s[0] != '0'
    ensures Value(s) >= Pow10(|s| - 1)
  {
    if |s| > 1 {
      var init := s[..|s| - 1];
      assert init[0] == s[0];
      LeadingDigitBound(init);
    }
  }

  /** The decimal text of `n` in exact arithmetic (see `Canonical` for how
      far this agrees with `String(n)`). */
  function Render(n: nat): (s: string)
    ensures Canonical(s)
    ensures Value(s) == n
  {
    if n < 10 then [DigitChar(n)]
    else
      var init := Render(n / 10);
      var s := init + [DigitChar(n % 10)];
      assert s[..|s| - 1] == init;
      assert init[0] != '0';
      s
  }

  /** Reading a canonical numeral and writing the number back gives the
      same text: a target such as "1500" is displayed as "1500". */
  lemma {:induction false} RenderValue(s: string)
    requires Canonical(s)
    ensures Render(Value(s)) == s
  {
    if |s| > 1 {
      var init := s[..|s| - 1];
      var last := s[|s| - 1];
      assert init[0] == s[0];
      LeadingDigitBound(init);
      RenderValue(init);
      LastDigit(Value(s), Value(init), DigitValue(last));
      assert DigitChar(DigitValue(last)) == last;
      assert Render(Value(s)) == Render(Value(init)) + [DigitChar(DigitValue(last))];
      assert init + [last] == s;
    } else {
      assert DigitChar(DigitValue(s[0])) == s[0];
    }
  }

  lemma LastDigit(v: nat, q: nat, d: nat)
    requires v == q * 10 + d && d < 10 && q >= 1
    ensures v >= 10 && v / 10 == q && v % 10 == d
  {
  }

  /** A decimal literal `whole` or `whole.frac`, both parts digit strings. */
  datatype Decimal = Decimal(whole: string, frac: string)
  {
    predicate Valid() {
      |whole| >= 1 && AllDigits(whole) && AllDigits(frac)
    }

    /** The literal as it is written in the attribute. */
    function Text(): (t: string)
      ensures frac == [] ==> t == whole
      ensures frac != [] ==> t == whole + "." + frac
    {
      if frac == [] then whole else whole + "." + frac
    }
  }

  /** Split `s` at its first '.', if it has one. */
  function SplitAtDot(s: string): (r: (string, Option<string>))
    ensures r.1.None? ==> r.0 == s && '.' !in s
    ensures r.1.Some? ==> s == r.0 + "." + r.1.value && '.' !in r.0
  {
    if |s| == 0 then ("", None)
    else if s[0] == '.' then ("", Some(s[1..]))
    else
      var rest := SplitAtDot(s[1..]);
      var r := ([s[0]] + rest.0, rest.1);
      assert s == [s[0]] + s[1..];
      r
  }

  /** A string without a dot is not split. */
  lemma SplitNoDot(w: string)
    requires '.' !in w
    ensures SplitAtDot(w) == (w, None)
  {
  }

  /** A string is split at the dot that follows its dot-free front. */
  lemma {:induction false} SplitWithDot(w: string, f: string)
    requires '.' !in w
    ensures SplitAtDot(w + "." + f) == (w, Some(f))
  {
    var s := w + "." + f;
    if |w| == 0 {
      assert s == "." + f && s[1..] == f;
    } else {
      assert s[0] == w[0] && s[1..] == w[1..] + "." + f;
      SplitWithDot(w[1..], f);
      assert [w[0]] + w[1..] == w;
    }
  }

  lemma NoDotInDigits(w: string)
    requires AllDigits(w)
    ensures '.' !in w
  {
  }

  /** Every decimal literal is read back as itself: the parser accepts all
      of `digits` and `digits.digits`, not just canonical numerals. */
  lemma ParseDecimalComplete(d: Decimal)
    requires d.Valid()
    ensures ParseDecimal(d.Text()) == Some(d)
  {
    NoDotInDigits(d.whole);
    if d.frac == [] {
      SplitNoDot(d.whole);
    } else {
      SplitWithDot(d.whole, d.frac);
    }
  }

  /** Read a target attribute as an unsigned decimal literal: digits,
      optionally followed by '.' and at least one more digit. */
  function ParseDecimal(s: string): (r: Option<Decimal>)
    ensures r.Some? ==> r.value.Valid()
    ensures r.Some? && |r.value.frac| == 0 ==> s == r.value.whole
    ensures r.Some? && |r.value.frac| > 0 ==> s == r.value.whole + "." + r.value.frac
    ensures Canonical(s) ==> r == Some(Decimal(s, ""))
  {
    var (whole, rest) := SplitAtDot(s);
    assert rest.Some? ==> s[|whole|] == '.' && !IsDigit(s[|whole|]);
    if |whole| == 0 || !AllDigits(whole) then None
    else match rest
      case None => Some(Decimal(whole, ""))
      case Some(frac) =>
        if |frac| == 0 || !AllDigits(frac) then None
        else Some(Decimal(whole, frac))
  }

  /** Half-up rounding of the literal's exact value, standing for
      `Math.round`: the first fractional digit decides, 5 and above rounding
      up. The script reads the literal into a double first, which can
      differ for literals with more digits than a double holds. */
  function RoundHalfUp(d: Decimal): (n: nat)
    requires d.Valid()
  {
    Value(d.whole) + (if |d.frac| > 0 && d.frac[0] >= '5' then 1 else 0)
  }

  /** The literal's value is whole + frac / 10^|frac|; the rounded number n
      satisfies n - 1/2 <= value < n + 1/2 (scaled by 2 * 10^|frac|). */
  lemma RoundHalfUpIsNearest(d: Decimal)
    requires d.Valid()
    ensures
      var p := Pow10(|d.frac|);
      var v := Value(d.whole) * p + Value(d.frac);
      var n := RoundHalfUp(d);
      2 * n * p <= 2 * v + p < 2 * n * p + 2 * p
  {
    var p := Pow10(|d.frac|);
    var f := Value(d.frac);
    if |d.frac| > 0 {
      FirstDigitHalves(d.frac);
    }
    NearestScaled(Value(d.whole), f, p, |d.frac| > 0 && d.frac[0] >= '5');
  }

  lemma NearestScaled(w: nat, f: nat, p: nat, up: bool)
    requires f < p
    requires up <==> 2 * f >= p
    ensures
      var n := w + (if up then 1 else 0);
      2 * n * p <= 2 * (w * p + f) + p < 2 * n * p + 2 * p
  {
    if up {
      assert 2 * (w + 1) * p == 2 * w * p + 2 * p;
    }
  }

  /** Twice a digit string's value reaches 10^length exactly when its
      leading digit is 5 or more. */
  lemma FirstDigitHalves(s: string)
    requires AllDigits(s) && |s| >= 1
    ensures s[0] >= '5' <==> 2 * Value(s) >= Pow10(|s|)
  {
    ValueFront(s);
    var q := Pow10(|s| - 1);
    assert Pow10(|s|) == 10 * q;
    HalfBound(DigitValue(s[0]), q, Value(s[1..]));
  }

  lemma HalfBound(d: nat, q: nat, rest: nat)
    requires d < 10 && rest < q
    ensures d >= 5 <==> 2 * (d * q + rest) >= 10 * q
  {
    if d >= 5 {
      MulMono(5, d, q);
    } else {
      MulMono(d, 4, q);
    }
  }

  lemma MulMono(a: nat, b: nat, q: nat)
    requires a <= b
    ensures a * q <= b * q
  {
  }
}

=== FILE: optional.dfy ===
/** An optional value: the model's stand-in for a DOM lookup or attribute
    read that may come back `null`. */
module Optional {

  datatype Option<+T> = None | Some(value: T)
}

=== FILE: pin.dfy ===
/** The horizontal pinned section (main.js lines 287-312): on wide
    viewports the '.pin-wrap' track is translated left while its container
    is pinned, over a scroll distance equal to the translation. */
module Pin {

  import opened Optional

  /** Width at or below which the section stays a plain vertical layout. */
  const Breakpoint: int := 768

  /** Pixels left between the track's right edge and the viewport's. */
  const TrailingMargin: int := 100

  /** `getScrollAmount()`: the translation that brings the track's right
      edge to `TrailingMargin` pixels inside the viewport. */
  function ScrollAmount(scrollWidth: int, innerWidth: int): (x: int)
    ensures scrollWidth + x == innerWidth - TrailingMargin
  {
    -(scrollWidth - innerWidth + TrailingMargin)
  }

  /** `Math.abs(getScrollAmount())`: the pinned scroll distance. */
  function EndDistance(scrollWidth: int, innerWidth: int): (d: nat)
    ensures d == ScrollAmount(scrollWidth, innerWidth) || d == -ScrollAmount(scrollWidth, innerWidth)
  {
    var x := ScrollAmount(scrollWidth, innerWidth);
    if x < 0 then -x else x
  }

  /** The tween target and the trigger's end, as measured at one refresh. */
  datatype PinTween = PinTween(x: int, end: nat)

  /** Both are functions of the current measurement and re-read on every
      refresh (`invalidateOnRefresh`). */
  function Measure(scrollWidth: int, innerWidth: int): (t: PinTween)
    ensures scrollWidth + t.x == innerWidth - TrailingMargin
    ensures t.end == t.x || t.end == -t.x
  {
    PinTween(ScrollAmount(scrollWidth, innerWidth), EndDistance(scrollWidth, innerWidth))
  }

  /** The setup: registered only when the width read once at start-up is
      above the breakpoint and the track exists; the amounts then come from
      the live width. `pinWrap` is the track's `scrollWidth`. */
  function Setup(startWidth: int, pinWrap: Option<int>, innerWidth: int): (r: Option<PinTween>)
    ensures r.Some? <==> startWidth > Breakpoint && pinWrap.Some?
    ensures r.Some? ==> pinWrap.value + r.value.x == innerWidth - TrailingMargin
    ensures r.Some? ==> r.value.end >= 0 && (r.value.end == r.value.x || r.value.end == -r.value.x)
  {
    if startWidth > Breakpoint && pinWrap.Some? then Some(Measure(pinWrap.value, innerWidth))
    else None
  }

  /** A track at least as wide as the viewport travels left by at least the
      margin, and the pinned scroll distance equals the travel (1:1). */
  lemma WideTrackScrollsOneToOne(scrollWidth: int, innerWidth: int)
    requires scrollWidth >= innerWidth
    ensures Measure(scrollWidth, innerWidth).x <= -TrailingMargin
    ensures Measure(scrollWidth, innerWidth).end == scrollWidth - innerWidth + TrailingMargin
  {
  }

  /** A track narrower than the viewport less the margin is pushed right
      instead; the absolute value keeps the scroll distance positive. */
  lemma NarrowTrackMovesRight(scrollWidth: int, innerWidth: int)
    requires scrollWidth < innerWidth - TrailingMargin
    ensures Measure(scrollWidth, innerWidth).x > 0
    ensures Measure(scrollWidth, innerWidth).end == Measure(scrollWidth, innerWidth).x
  {
  }
}

=== FILE: text.dfy ===
/** String helpers with the meaning of the JavaScript built-ins they stand for. */
module Text {

  /** `s.startsWith(prefix)`: case-sensitive, character by character. */
  function StartsWith(s: string, prefix: string): (r: bool)
    ensures r <==> |prefix| <= |s| && s[..|prefix|] == prefix
  {
    if |prefix| == 0 then true
    else if |s| == 0 then false
    else s[0] == prefix[0] && StartsWith(s[1..], prefix[1..])
  }
}

=== FILE: transition.dfy ===
/** The page-transition machine of main.js lines 119-241, one pure step
    per browser event. The state is everything the three listeners (load,
    link click, pageshow) read or write; the effects list what they do, in
    the order they do it. */
module Transition {

  import opened Optional
  import opened Links
  import opened Counters

  /** The value written under the session key 'ielc-transition-active'. */
  const FlagValue: string := "true"

  /** A `y` translation, in percent, that the script set with GSAP;
      `CssDefault` until the script first writes one. */
  datatype Pos = CssDefault | At(pct: int)

  const Covering: int := 0      // curtain over the viewport
  const Below: int := 100       // curtain parked under the viewport
  const Above: int := -100      // curtain or loader lifted off the top

  datatype LogoStage = Blank | Stroked | Filled

  /** The five tweens of the first-visit timeline (lines 156-188). */
  datatype IntroStep = StrokeLogo | FillLogo | LiftLoader | RevealHero | CountUp

  const IntroSteps: seq<IntroStep> := [StrokeLogo, FillLogo, LiftLoader, RevealHero, CountUp]

  /** A running tween of the curtain toward `to`, with the navigation its
      `onComplete` performs, if any. */
  datatype Tween = Tween(to: int, onComplete: Option<string>)

  datatype PageState = PageState(
    flag: Option<string>,      // sessionStorage 'ielc-transition-active'
    modeAtStart: bool,         // the constant read once at line 121
    modeClass: bool,           // the live 'transition-mode' class on <html>
    curtain: Pos,              // '.page-transition'
    loader: Option<Pos>,       // '.loader'; None when the page has none
    heroShown: bool,           // '.hero-title span' set to y: 0, opacity: 1
    logo: LogoStage,           // '.logo-path'
    counters: seq<Counter>,    // '.stat-number'
    intro: seq<IntroStep>,     // first-visit timeline steps not yet finished
    tweens: seq<Tween>)        // curtain tweens still running

  /** What `document.querySelector(href)` does for a '#' link: finds the
      element, finds nothing, or throws on a selector such as "#". */
  datatype AnchorLookup = Found | Missing | BadSelector

  /** What `sessionStorage.setItem` does for a covered click: stores the
      flag, or throws because storage is disabled or full. */
  datatype StorageWrite = Stored | StorageBlocked

  datatype Event =
    | Load
    | Click(link: Link, lookup: AnchorLookup, storage: StorageWrite)
    | CurtainDone(index: nat)   // the tween at `index` of `tweens` completes
    | IntroStepDone             // the first unfinished timeline step completes
    | PageShow(persisted: bool)

  datatype Effect =
    | PreventDefault
    | ScrollTo(selector: string)
    | SelectorError
    | StorageError
    | SetFlag(value: string)
    | RemoveFlag
    | RemoveModeClass
    | SetCurtain(pct: int)
    | TweenCurtain(tween: Tween)
    | SetLoader(pct: int)
    | ShowHero
    | SetCounter(index: nat, text: string)
    | PlayIntro
    | Finished(step: IntroStep)
    | Navigate(href: string)

  /** The page as the script first sees it: the class was set (or not) by
      the inline head script, and nothing has been written by GSAP yet. */
  function Init(modeClass: bool, flag: Option<string>, hasLoader: bool, counters: seq<Counter>): (s: PageState)
    ensures s.modeAtStart == modeClass && s.modeClass == modeClass
    ensures s.flag == flag && s.counters == counters
    ensures s.loader.Some? <==> hasLoader
    ensures s.loader.Some? ==> s.loader.value == CssDefault
    ensures s.curtain == CssDefault && !s.heroShown && s.logo == Blank
    ensures s.intro == [] && s.tweens == []
  {
    PageState(flag, modeClass, modeClass, CssDefault,
              if hasLoader then Some(CssDefault) else None,
              false, Blank, counters, [], [])
  }

  const Reveal: Tween := Tween(Above, None)

  function CoverTween(href: string): (t: Tween) {
    Tween(Covering, Some(href))
  }

  predicate Precedes(effs: seq<Effect>, a: Effect, b: Effect) {
    exists i, j :: 0 <= i < j < |effs| && effs[i] == a && effs[j] == b
  }

  predicate NoNavigation(effs: seq<Effect>) {
    forall e :: e in effs ==> !e.Navigate?
  }

  predicate NoFlagWrite(effs: seq<Effect>) {
    forall e :: e in effs ==> !e.SetFlag? && !e.RemoveFlag?
  }

  predicate NoFinished(effs: seq<Effect>) {
    forall e :: e in effs ==> !e.Finished?
  }

  function LiftedLoader(loader: Option<Pos>): (r: Option<Pos>)
    ensures r.Some? <==> loader.Some?
    ensures r.Some? ==> r.value == At(Above)
  {
    if loader.Some? then Some(At(Above)) else None
  }

  function LoaderEffects(loader: Option<Pos>): (effs: seq<Effect>)
  {
    if loader.Some? then [SetLoader(Above)] else []
  }

  /** One `SetCounter` per counter from index `i` on that has a non-empty
      target, in document order. */
  function CounterEffects(cs: seq<Counter>, i: nat): (effs: seq<Effect>)
    requires i <= |cs|
    decreases |cs| - i
  {
    if i == |cs| then []
    else (if HasTarget(cs[i]) then [SetCounter(i, cs[i].target.value)] else [])
         + CounterEffects(cs, i + 1)
  }

  /** Every counter with a target is written its target's text. */
  lemma {:induction false} CounterEffectsComplete(cs: seq<Counter>, i: nat)
    requires i <= |cs|
    ensures forall j :: i <= j < |cs| && HasTarget(cs[j]) ==>
              SetCounter(j, cs[j].target.value) in CounterEffects(cs, i)
    decreases |cs| - i
  {
    if i < |cs| {
      CounterEffectsComplete(cs, i + 1);
    }
  }

  /** Nothing but counters with a target is written, and only with that text. */
  lemma {:induction false} CounterEffectsSound(cs: seq<Counter>, i: nat)
    requires i <= |cs|
    ensures forall e :: e in CounterEffects(cs, i) ==>
              e.SetCounter? && i <= e.index < |cs| && HasTarget(cs[e.index])
              && e.text == cs[e.index].target.value
    decreases |cs| - i
  {
    if i < |cs| {
      CounterEffectsSound(cs, i + 1);
    }
  }

  /** The writes of the arrival load, in source order. */
  function ArrivalEffects(s: PageState): (effs: seq<Effect>) {
    ([SetCurtain(Covering)] + LoaderEffects(s.loader) + [ShowHero] + CounterEffects(s.counters, 0))
    + [RemoveModeClass, TweenCurtain(Reveal), RemoveFlag]
  }

  /** `load` on a page in transition mode (lines 125-150): snap everything
      to its revealed state under the curtain, drop the class, lift the
      curtain and consume the flag. */
  function Arrive(s: PageState): (r: (PageState, seq<Effect>))
    ensures r.0.flag == None
    ensures !r.0.modeClass
    ensures r.0.curtain == At(Covering)
    ensures r.0.tweens == s.tweens + [Reveal]
    ensures r.0.loader == LiftedLoader(s.loader)
    ensures r.0.heroShown
    ensures |r.0.counters| == |s.counters|
    ensures forall i :: 0 <= i < |s.counters| ==>
              r.0.counters[i].target == s.counters[i].target &&
              r.0.counters[i].text == (if HasTarget(s.counters[i]) then s.counters[i].target.value else s.counters[i].text)
    ensures r.0.logo == s.logo && r.0.intro == s.intro && r.0.modeAtStart == s.modeAtStart
  {
    var t := s.(flag := None, modeClass := false, curtain := At(Covering),
                loader := LiftedLoader(s.loader), heroShown := true,
                counters := ArriveAll(s.counters), tweens := s.tweens + [Reveal]);
    (t, ArrivalEffects(s))
  }

  /** The arrival load snaps the curtain and drops the class before the
      reveal starts, and consumes the flag last. */
  lemma ArriveOrder(s: PageState)
    ensures var effs := Arrive(s).1;
      && Precedes(effs, SetCurtain(Covering), TweenCurtain(Reveal))
      && Precedes(effs, RemoveModeClass, TweenCurtain(Reveal))
      && Precedes(effs, TweenCurtain(Reveal), RemoveFlag)
  {
    var before := [SetCurtain(Covering)] + LoaderEffects(s.loader) + [ShowHero] + CounterEffects(s.counters, 0);
    var effs := ArrivalEffects(s);
    assert effs[0] == SetCurtain(Covering);
    assert effs[|before|] == RemoveModeClass;
    assert effs[|before| + 1] == TweenCurtain(Reveal);
    assert effs[|before| + 2] == RemoveFlag;
  }

  /** Each counter with a target is written exactly its target's text and
      no other counter is written. */
  lemma ArriveCounterWrites(s: PageState)
    ensures var effs := Arrive(s).1;
      && (forall i :: 0 <= i < |s.counters| && HasTarget(s.counters[i]) ==>
            SetCounter(i, s.counters[i].target.value) in effs)
      && (forall e :: e in effs && e.SetCounter? ==>
            e.index < |s.counters| && HasTarget(s.counters[e.index])
            && e.text == s.counters[e.index].target.value)
  {
    CounterEffectsComplete(s.counters, 0);
    CounterEffectsSound(s.counters, 0);
  }

  /** The arrival load neither navigates, sets the flag, nor finishes a
      timeline step. */
  lemma ArriveEffectKinds(s: PageState)
    ensures var effs := Arrive(s).1;
      NoNavigation(effs) && NoFinished(effs) && forall e :: e in effs ==> !e.SetFlag?
  {
    CounterEffectsSound(s.counters, 0);
  }

  /** `load` on a first visit (lines 152-189): start the loader timeline
      and nothing else. */
  function FirstVisit(s: PageState): (r: (PageState, seq<Effect>))
    ensures r.0.intro == IntroSteps
    ensures r.0.flag == s.flag && NoFlagWrite(r.1)
    ensures r.0.(intro := s.intro) == s
    ensures r.1 == [PlayIntro]
  {
    (s.(intro := IntroSteps), [PlayIntro])
  }

  /** The state one finished timeline step leaves behind. */
  function ApplyStep(s: PageState, step: IntroStep): (r: PageState)
    ensures r.flag == s.flag && r.tweens == s.tweens && r.curtain == s.curtain
    ensures r.intro == s.intro && r.modeClass == s.modeClass && r.modeAtStart == s.modeAtStart
    ensures step == StrokeLogo ==> r == s.(logo := Stroked)
    ensures step == FillLogo ==> r == s.(logo := Filled)
    ensures step == LiftLoader ==> r == s.(loader := LiftedLoader(s.loader))
    ensures step == RevealHero ==> r == s.(heroShown := true)
    ensures step == CountUp ==> r.counters == CountUpAll(s.counters) && r == s.(counters := r.counters)
  {
    match step
    case StrokeLogo => s.(logo := Stroked)
    case FillLogo => s.(logo := Filled)
    case LiftLoader => s.(loader := LiftedLoader(s.loader))
    case RevealHero => s.(heroShown := true)
    case CountUp => s.(counters := CountUpAll(s.counters))
  }

  function AdvanceIntro(s: PageState): (r: (PageState, seq<Effect>))
    ensures s.intro == [] ==> r == (s, [])
    ensures s.intro != [] ==> r.0.intro == s.intro[1..] && r.1 == [Finished(s.intro[0])]
    ensures r.0.flag == s.flag && r.0.tweens == s.tweens && r.0.curtain == s.curtain
  {
    if s.intro == [] then (s, [])
    else (ApplyStep(s, s.intro[0]).(intro := s.intro[1..]), [Finished(s.intro[0])])
  }

  /** The writes of a same-page jump (lines 31-38): the default is always
      prevented, and the scroll happens only when the anchor exists. */
  function JumpEffects(sel: string, lookup: AnchorLookup): (effs: seq<Effect>)
    ensures |effs| >= 1 && effs[0] == PreventDefault
    ensures ScrollTo(sel) in effs <==> lookup == Found
    ensures NoNavigation(effs) && NoFlagWrite(effs) && NoFinished(effs)
    ensures forall k :: 0 <= k < |effs| ==> !effs[k].TweenCurtain?
  {
    var scroll := match lookup
      case Found => [ScrollTo(sel)]
      case Missing => []
      case BadSelector => [SelectorError];
    [PreventDefault] + scroll
  }

  /** The writes of a covered click (lines 207-216): the flag is written
      before the curtain is parked below, which happens before the cover
      tween starts. */
  function CoverEffects(h: string): (effs: seq<Effect>)
    ensures PreventDefault in effs
    ensures Precedes(effs, SetFlag(FlagValue), SetCurtain(Below))
    ensures Precedes(effs, SetCurtain(Below), TweenCurtain(CoverTween(h)))
    ensures Precedes(effs, SetFlag(FlagValue), TweenCurtain(CoverTween(h)))
    ensures NoNavigation(effs) && NoFinished(effs)
  {
    var effs := [PreventDefault, SetFlag(FlagValue), SetCurtain(Below), TweenCurtain(CoverTween(h))];
    assert effs[1] == SetFlag(FlagValue) && effs[2] == SetCurtain(Below);
    assert effs[3] == TweenCurtain(CoverTween(h));
    effs
  }

  /** A click on a link (lines 27-41 and 193-216). When the flag write
      throws, the listener stops after preventing the default: the click
      does nothing else. */
  function ClickLink(s: PageState, l: Link, lookup: AnchorLookup, storage: StorageWrite): (r: (PageState, seq<Effect>))
    ensures Classify(l).PassThrough? ==> r == (s, [])
    ensures Classify(l).SamePage? ==> r == (s, JumpEffects(l.href.value, lookup))
    ensures Classify(l).Cover? && storage == StorageBlocked ==> r == (s, [PreventDefault, StorageError])
    ensures Classify(l).Cover? && storage == Stored ==>
              var h := l.href.value;
              && r.0.flag == Some(FlagValue)
              && r.0.curtain == At(Below)
              && r.0.tweens == s.tweens + [CoverTween(h)]
              && r.0.(flag := s.flag, curtain := s.curtain, tweens := s.tweens) == s
              && r.1 == CoverEffects(h)
  {
    match Classify(l)
    case PassThrough => (s, [])
    case SamePage(sel) => (s, JumpEffects(sel, lookup))
    case Cover(h) =>
      match storage
      case StorageBlocked => (s, [PreventDefault, StorageError])
      case Stored => (s.(flag := Some(FlagValue), curtain := At(Below), tweens := s.tweens + [CoverTween(h)]), CoverEffects(h))
  }

  /** A curtain tween reaching its end: the curtain field takes its target
      and, for a cover tween, the browser is sent to the link. While a
      curtain tween started later is still running, that later tween is
      what the page shows. */
  function FinishTween(s: PageState, i: nat): (r: (PageState, seq<Effect>))
    ensures i >= |s.tweens| ==> r == (s, [])
    ensures i < |s.tweens| ==>
              && r.0.curtain == At(s.tweens[i].to)
              && r.0.tweens == s.tweens[..i] + s.tweens[i + 1..]
              && r.0.(curtain := s.curtain, tweens := s.tweens) == s
              && (s.tweens[i].onComplete.Some? ==> r.1 == [Navigate(s.tweens[i].onComplete.value)])
              && (s.tweens[i].onComplete.None? ==> r.1 == [])
  {
    if i >= |s.tweens| then (s, [])
    else
      var t := s.tweens[i];
      var effs := if t.onComplete.Some? then [Navigate(t.onComplete.value)] else [];
      (s.(curtain := At(t.to), tweens := s.tweens[..i] + s.tweens[i + 1..]), effs)
  }

  /** `pageshow` (lines 220-241): only a page restored from the
      back/forward cache reacts, by re-covering and lifting the curtain. */
  function Restore(s: PageState, persisted: bool): (r: (PageState, seq<Effect>))
    ensures !persisted ==> r == (s, [])
    ensures persisted ==>
              && !r.0.modeClass
              && r.0.curtain == At(Covering)
              && r.0.loader == LiftedLoader(s.loader)
              && r.0.heroShown
              && r.0.tweens == s.tweens + [Reveal]
              && r.0.flag == s.flag && NoFlagWrite(r.1)
              && r.0.counters == s.counters
              && r.0.intro == s.intro && r.0.logo == s.logo
              && Precedes(r.1, SetCurtain(Covering), TweenCurtain(Reveal))
              && NoNavigation(r.1)
              && forall k :: 0 <= k < |r.1| ==> !r.1[k].SetCounter?
  {
    if !persisted then (s, [])
    else
      var effs := [RemoveModeClass, SetCurtain(Covering)] + LoaderEffects(s.loader)
                  + [ShowHero, TweenCurtain(Reveal)];
      assert effs[1] == SetCurtain(Covering) && effs[|effs| - 1] == TweenCurtain(Reveal);
      (s.(modeClass := false, curtain := At(Covering), loader := LiftedLoader(s.loader),
          heroShown := true, tweens := s.tweens + [Reveal]), effs)
  }

  /** The machine: one event in, the next state and the effects out. */
  function Step(s: PageState, e: Event): (r: (PageState, seq<Effect>))
    // the constant and the set of elements on the page never change
    ensures r.0.modeAtStart == s.modeAtStart
    ensures r.0.loader.Some? <==> s.loader.Some?
    ensures |r.0.counters| == |s.counters|
  {
    match e
    case Load => if s.modeAtStart then Arrive(s) else FirstVisit(s)
    case Click(l, lookup, storage) => ClickLink(s, l, lookup, storage)
    case CurtainDone(i) => FinishTween(s, i)
    case IntroStepDone => AdvanceIntro(s)
    case PageShow(p) => Restore(s, p)
  }

  /** A click the navigation listener covers: not exempt, and the flag
      write succeeded. */
  predicate CoveredClick(e: Event) {
    e.Click? && Classify(e.link).Cover? && e.storage == Stored
  }

  /** The flag is written only by a covered click and removed only by an
      arrival load; every other event leaves it alone. */
  lemma StepFlag(s: PageState, e: Event)
    ensures var r := Step(s, e);
      && (e.Load? && s.modeAtStart ==> r.0.flag == None)
      && (!e.Click? && !(e.Load? && s.modeAtStart) ==> r.0.flag == s.flag && NoFlagWrite(r.1))
      && (CoveredClick(e) ==> r.0.flag == Some(FlagValue))
      && (e.Click? && !CoveredClick(e) ==> r.0 == s && NoNavigation(r.1))
  {
    if e.Load? && s.modeAtStart {
      ArriveEffectKinds(s);
    }
  }

  /** Every running tween that navigates tweens to the covering position. */
  predicate CoverTweensOnly(s: PageState) {
    forall t :: t in s.tweens && t.onComplete.Some? ==> t.to == Covering
  }

  lemma RemovedTween(ts: seq<Tween>, i: nat)
    requires i < |ts|
    ensures forall t :: t in ts[..i] + ts[i + 1..] ==> t in ts
  {
    forall t | t in ts[..i] + ts[i + 1..]
      ensures t in ts
    {
      if t in ts[..i] {
        var k :| 0 <= k < i && ts[..i][k] == t;
        assert ts[k] == t;
      } else {
        var k :| 0 <= k < |ts[i + 1..]| && ts[i + 1..][k] == t;
        assert ts[i + 1 + k] == t;
      }
    }
  }

  /** Only a covered click starts a tween that navigates; a finished tween
      only removes one. */
  lemma StepTweens(s: PageState, e: Event)
    ensures var r := Step(s, e);
      && (forall t :: t in r.0.tweens && t !in s.tweens ==>
            t.onComplete.None? || (CoveredClick(e) && t == CoverTween(Classify(e.link).href)))
      && (e.CurtainDone? ==> forall t :: t in r.0.tweens ==> t in s.tweens)
  {
    match e
    case Load =>
      if s.modeAtStart {
        assert Step(s, e).0.tweens == s.tweens + [Reveal];
      }
    case Click(l, lookup, storage) =>
    case CurtainDone(i) =>
      if i < |s.tweens| {
        RemovedTween(s.tweens, i);
      }
    case IntroStepDone =>
    case PageShow(p) =>
  }

  /** The browser is sent away only when a tween with a navigation
      completes, to that tween's link; and only a covered click starts such
      a tween, so in a state where every such tween tweens to the covering
      position, the curtain field holds that position at the moment of
      navigation. */
  lemma StepNavigation(s: PageState, e: Event)
    ensures var r := Step(s, e);
      && (forall k :: 0 <= k < |r.1| && r.1[k].Navigate? ==>
            && e.CurtainDone? && e.index < |s.tweens|
            && s.tweens[e.index].onComplete == Some(r.1[k].href)
            && (CoverTweensOnly(s) ==> r.0.curtain == At(Covering)))
      && (CoverTweensOnly(s) ==> CoverTweensOnly(r.0))
  {
    StepTweens(s, e);
    if e.Load? && s.modeAtStart {
      ArriveEffectKinds(s);
    } else if e.CurtainDone? && e.index < |s.tweens| {
      assert s.tweens[e.index] in s.tweens;
    }
  }

  /** The first-visit timeline is started only by a first-visit load and
      advances one step at a time, in order. */
  lemma StepIntro(s: PageState, e: Event)
    ensures var r := Step(s, e);
      && (e.Load? && !s.modeAtStart ==> r.0.intro == IntroSteps && NoFinished(r.1))
      && (e.Load? && s.modeAtStart ==> r.0.intro == s.intro && NoFinished(r.1))
      && (e.IntroStepDone? && s.intro == [] ==> r == (s, []))
      && (e.IntroStepDone? && s.intro != [] ==> r.0.intro == s.intro[1..] && r.1 == [Finished(s.intro[0])])
      && (!e.Load? && !e.IntroStepDone? ==> r.0.intro == s.intro && NoFinished(r.1))
  {
    match e
    case Load => if s.modeAtStart { ArriveEffectKinds(s); }
    case Click(l, lookup, storage) =>
    case CurtainDone(i) =>
    case IntroStepDone =>
    case PageShow(p) =>
  }
}

=== FILE: transition_traces.dfy ===
/** Runs of the transition machine over a sequence of browser events, and
    the guarantees that hold across a whole page lifetime. */
module TransitionTraces {

  import opened Optional
  import opened Links
  import opened Counters
  import opened Numerals
  import opened Transition

  type StepFn = (PageState, Event) -> (PageState, seq<Effect>)

  /** Feed the events in order to `step`; the effects of every step,
      concatenated. */
  function RunWith(step: StepFn, s: PageState, evs: seq<Event>): (r: (PageState, seq<Effect>))
    decreases |evs|
  {
    if evs == [] then (s, [])
    else
      var before := RunWith(step, s, evs[..|evs| - 1]);
      var last := step(before.0, evs[|evs| - 1]);
      (last.0, before.1 + last.1)
  }

  /** A page lifetime: the events fed to the transition machine. */
  function Run(s: PageState, evs: seq<Event>): (r: (PageState, seq<Effect>)) {
    RunWith(Step, s, evs)
  }

  lemma RunOne(s: PageState, e: Event)
    ensures Run(s, [e]) == Step(s, e)
  {
    assert [e][..0] == [];
    assert RunWith(Step, s, [e][..0]) == (s, []);
    assert [] + Step(s, e).1 == Step(s, e).1;
  }

  lemma {:induction false} RunWithAppend(step: StepFn, s: PageState, a: seq<Event>, b: seq<Event>)
    ensures var ra := RunWith(step, s, a);
            var rb := RunWith(step, ra.0, b);
            RunWith(step, s, a + b) == (rb.0, ra.1 + rb.1)
    decreases |b|
  {
    var ra := RunWith(step, s, a);
    if b == [] {
      assert a + b == a;
      assert ra.1 + [] == ra.1;
    } else {
      var b' := b[..|b| - 1];
      RunWithAppend(step, s, a, b');
      assert (a + b)[..|a + b| - 1] == a + b';
      assert (a + b)[|a + b| - 1] == b[|b| - 1];
      var rb' := RunWith(step, ra.0, b');
      var last := step(rb'.0, b[|b| - 1]);
      assert (ra.1 + rb'.1) + last.1 == ra.1 + (rb'.1 + last.1);
    }
  }

  /** Running two event sequences one after the other is running their
      concatenation. */
  lemma RunAppend(s: PageState, a: seq<Event>, b: seq<Event>)
    ensures var ra := Run(s, a);
            var rb := Run(ra.0, b);
            Run(s, a + b) == (rb.0, ra.1 + rb.1)
  {
    RunWithAppend(Step, s, a, b);
  }

  /** The flag was written, and later a cover tween to `href` started. */
  predicate CoverStarted(out: seq<Effect>, href: string) {
    exists i, j :: 0 <= i < j < |out| && out[i] == SetFlag(FlagValue) && out[j] == TweenCurtain(CoverTween(href))
  }

  lemma CoverStartedExtends(out: seq<Effect>, more: seq<Effect>, href: string)
    requires CoverStarted(out, href)
    ensures CoverStarted(out + more, href)
  {
    var i, j :| 0 <= i < j < |out| && out[i] == SetFlag(FlagValue) && out[j] == TweenCurtain(CoverTween(href));
    assert (out + more)[i] == out[i] && (out + more)[j] == out[j];
  }

  lemma CoverStartedShifts(out: seq<Effect>, more: seq<Effect>, href: string)
    requires CoverStarted(more, href)
    ensures CoverStarted(out + more, href)
  {
    var i, j :| 0 <= i < j < |more| && more[i] == SetFlag(FlagValue) && more[j] == TweenCurtain(CoverTween(href));
    assert (out + more)[|out| + i] == more[i] && (out + more)[|out| + j] == more[j];
  }

  /** Every running tween that will navigate was started by a cover whose
      flag write came first. */
  predicate CoversAccounted(s: PageState, out: seq<Effect>) {
    forall t :: t in s.tweens && t.onComplete.Some? ==> CoverStarted(out, t.onComplete.value)
  }

  /** Nothing navigates before the flag is written and the cover to the
      same link has started: over any run from a page with no navigating
      tween, each `Navigate(h)` is preceded by `SetFlag("true")` and then
      by the cover tween for `h`. Every navigating tween left running
      tweens to the covering position (see `CurtainCoversAtNavigation`). */
  lemma {:induction false} NavigationFollowsCover(s: PageState, evs: seq<Event>)
    requires forall t :: t in s.tweens ==> t.onComplete.None?
    ensures var r := Run(s, evs);
      && CoversAccounted(r.0, r.1)
      && CoverTweensOnly(r.0)
      && forall k :: 0 <= k < |r.1| && r.1[k].Navigate? ==> CoverStarted(r.1[..k], r.1[k].href)
    decreases |evs|
  {
    if evs != [] {
      var prefix := evs[..|evs| - 1];
      var e := evs[|evs| - 1];
      NavigationFollowsCover(s, prefix);
      var before := Run(s, prefix);
      var last := Step(before.0, e);
      var out := before.1 + last.1;
      assert Run(s, evs) == (last.0, out);
      StepNavigation(before.0, e);
      StepTweens(before.0, e);
      forall t | t in last.0.tweens && t.onComplete.Some?
        ensures CoverStarted(out, t.onComplete.value)
      {
        if t in before.0.tweens {
          CoverStartedExtends(before.1, last.1, t.onComplete.value);
        } else {
          var h := Classify(e.link).href;
          assert CoverStarted(last.1, h);
          CoverStartedShifts(before.1, last.1, h);
        }
      }
      forall k | 0 <= k < |out| && out[k].Navigate?
        ensures CoverStarted(out[..k], out[k].href)
      {
        if k < |before.1| {
          assert out[..k] == before.1[..k];
        } else {
          var k' := k - |before.1|;
          assert last.1[k'] == out[k];
          var t := before.0.tweens[e.index];
          assert t in before.0.tweens;
          CoverStartedExtends(before.1, last.1[..k'], out[k].href);
          assert out[..k] == before.1 + last.1[..k'];
        }
      }
    }
  }

  /** Whenever an event in a run from a page with no navigating tween sends
      the browser away, and the finishing tween is the last curtain tween
      started and still running, the curtain covers the viewport at that
      moment. Tweens are kept in the order they started, so no later
      curtain tween is left to draw over it. */
  lemma CurtainCoversAtNavigation(s: PageState, evs: seq<Event>, m: nat)
    requires forall t :: t in s.tweens ==> t.onComplete.None?
    requires m < |evs|
    ensures var before := Run(s, evs[..m]).0;
            var r := Step(before, evs[m]);
      && evs[m].CurtainDone? && evs[m].index + 1 == |before.tweens|
      && (exists k :: 0 <= k < |r.1| && r.1[k].Navigate?)
      ==> r.0.curtain == At(Covering) && r.0.tweens == before.tweens[..evs[m].index]
  {
    var before := Run(s, evs[..m]).0;
    NavigationFollowsCover(s, evs[..m]);
    StepNavigation(before, evs[m]);
    if evs[m].CurtainDone? && evs[m].index + 1 == |before.tweens| {
      assert before.tweens[evs[m].index + 1..] == [];
    }
  }

  function LoadCount(evs: seq<Event>): (n: nat) {
    if evs == [] then 0
    else LoadCount(evs[..|evs| - 1]) + (if evs[|evs| - 1].Load? then 1 else 0)
  }

  /** The timeline steps reported finished, in order. */
  function FinishedSteps(out: seq<Effect>): (steps: seq<IntroStep>) {
    if out == [] then []
    else FinishedSteps(out[..|out| - 1]) + (if out[|out| - 1].Finished? then [out[|out| - 1].step] else [])
  }

  lemma {:induction false} FinishedStepsAppend(a: seq<Effect>, b: seq<Effect>)
    ensures FinishedSteps(a + b) == FinishedSteps(a) + FinishedSteps(b)
    decreases |b|
  {
    if b == [] {
      assert a + b == a;
    } else {
      FinishedStepsAppend(a, b[..|b| - 1]);
      assert (a + b)[..|a + b| - 1] == a + b[..|b| - 1];
      assert (a + b)[|a + b| - 1] == b[|b| - 1];
    }
  }

  lemma NoFinishedSteps(out: seq<Effect>)
    requires NoFinished(out)
    ensures FinishedSteps(out) == []
    decreases |out|
  {
    if out != [] {
      assert out[|out| - 1] in out;
      assert forall e :: e in out[..|out| - 1] ==> e in out;
      NoFinishedSteps(out[..|out| - 1]);
    }
  }

  /** The first-visit timeline plays in source order: over any page
      lifetime with the single `load` the browser fires, the steps reported
      finished are always a prefix of stroke, fill, loader, hero, counters. */
  lemma {:induction false} IntroPlaysInOrder(s: PageState, evs: seq<Event>)
    requires s.intro == []
    requires LoadCount(evs) <= 1
    ensures FinishedSteps(Run(s, evs).1) <= IntroSteps
    ensures LoadCount(evs) == 1 && !s.modeAtStart ==>
              FinishedSteps(Run(s, evs).1) + Run(s, evs).0.intro == IntroSteps
  {
    IntroInvariant(s, evs);
  }

  /** What a page lifetime with `loads` loads so far has done to the
      timeline: nothing before a first-visit load, and afterwards the
      finished steps followed by the pending ones are the whole timeline. */
  predicate IntroInv(mode: bool, loads: nat, intro: seq<IntroStep>, finished: seq<IntroStep>) {
    && (loads == 0 || mode ==> finished == [] && intro == [])
    && (loads == 1 && !mode ==> finished + intro == IntroSteps)
  }

  lemma IntroStepKeeps(s: PageState, finished: seq<IntroStep>, loads: nat, e: Event)
    requires IntroInv(s.modeAtStart, loads, s.intro, finished)
    requires loads + (if e.Load? then 1 else 0) <= 1
    ensures var r := Step(s, e);
      IntroInv(s.modeAtStart, loads + (if e.Load? then 1 else 0), r.0.intro, finished + FinishedSteps(r.1))
  {
    var r := Step(s, e);
    StepIntro(s, e);
    if e.IntroStepDone? && s.intro != [] {
      assert FinishedSteps(r.1) == [s.intro[0]] by {
        assert r.1 == [] + [Finished(s.intro[0])];
      }
      assert finished + [s.intro[0]] + s.intro[1..] == finished + s.intro;
    } else if !e.IntroStepDone? {
      NoFinishedSteps(r.1);
      assert finished + [] == finished;
    }
  }

  lemma {:induction false} IntroInvariant(s: PageState, evs: seq<Event>)
    requires s.intro == []
    requires LoadCount(evs) <= 1
    ensures var r := Run(s, evs);
      && r.0.modeAtStart == s.modeAtStart
      && IntroInv(s.modeAtStart, LoadCount(evs), r.0.intro, FinishedSteps(r.1))
    decreases |evs|
  {
    if evs != [] {
      var prefix := evs[..|evs| - 1];
      var e := evs[|evs| - 1];
      IntroInvariant(s, prefix);
      var before := Run(s, prefix);
      var last := Step(before.0, e);
      assert Run(s, evs) == (last.0, before.1 + last.1);
      FinishedStepsAppend(before.1, last.1);
      IntroStepKeeps(before.0, FinishedSteps(before.1), LoadCount(prefix), e);
    }
  }

  predicate Targeted(cs: seq<Counter>) {
    forall i :: 0 <= i < |cs| ==> cs[i].target.Some? && Canonical(cs[i].target.value)
  }

  const IntroEvents: seq<Event> := [Load, IntroStepDone, IntroStepDone, IntroStepDone, IntroStepDone, IntroStepDone]

  /** Appending one event to a run takes one more step. */
  lemma RunSnoc(s: PageState, evs: seq<Event>, e: Event)
    ensures var before := Run(s, evs);
            var last := Step(before.0, e);
            Run(s, evs + [e]) == (last.0, before.1 + last.1)
  {
    RunAppend(s, evs, [e]);
    RunOne(Run(s, evs).0, e);
  }

  /** One finished timeline step applies the step at the head of the queue. */
  lemma StepDone(s: PageState, step: IntroStep, rest: seq<IntroStep>)
    requires s.intro == [step] + rest
    ensures Step(s, IntroStepDone).0 == ApplyStep(s, step).(intro := rest)
  {
  }

  /** The two logo steps of the timeline. */
  lemma LogoSteps(s: PageState)
    requires s.intro == IntroSteps
    ensures Step(Step(s, IntroStepDone).0, IntroStepDone).0 == s.(intro := IntroSteps[2..], logo := Filled)
  {
    StepDone(s, StrokeLogo, IntroSteps[1..]);
    StepDone(s.(intro := IntroSteps[1..], logo := Stroked), FillLogo, IntroSteps[2..]);
  }

  /** The last three steps of the timeline: loader, hero, counters. */
  lemma PageSteps(s: PageState)
    requires s.intro == IntroSteps[2..]
    ensures var s4 := Step(s, IntroStepDone).0;
            var s5 := Step(s4, IntroStepDone).0;
            Step(s5, IntroStepDone).0
              == s.(intro := [], loader := LiftedLoader(s.loader), heroShown := true,
                    counters := CountUpAll(s.counters))
  {
    StepDone(s, LiftLoader, IntroSteps[3..]);
    var s4 := s.(intro := IntroSteps[3..], loader := LiftedLoader(s.loader));
    StepDone(s4, RevealHero, IntroSteps[4..]);
    StepDone(s4.(intro := IntroSteps[4..], heroShown := true), CountUp, []);
  }

  /** Two events run one after the other. */
  lemma RunTwo(s: PageState, e1: Event, e2: Event)
    ensures Run(s, [e1, e2]).0 == Step(Step(s, e1).0, e2).0
  {
    assert [e1, e2] == [e1] + [e2];
    RunSnoc(s, [e1], e2);
    RunOne(s, e1);
  }

  /** Three events run one after the other. */
  lemma RunThree(s: PageState, e1: Event, e2: Event, e3: Event)
    ensures Run(s, [e1, e2, e3]).0 == Step(Step(Step(s, e1).0, e2).0, e3).0
  {
    assert [e1, e2, e3] == [e1, e2] + [e3];
    RunSnoc(s, [e1, e2], e3);
    RunTwo(s, e1, e2);
  }

  /** The state a first visit reaches once its whole timeline has played. */
  lemma FirstVisitRun(s0: PageState)
    requires s0.intro == [] && !s0.modeAtStart
    ensures Run(s0, IntroEvents).0
              == s0.(intro := [], logo := Filled, loader := LiftedLoader(s0.loader), heroShown := true,
                     counters := CountUpAll(s0.counters))
  {
    var front := [Load, IntroStepDone, IntroStepDone];
    var back := [IntroStepDone, IntroStepDone, IntroStepDone];
    var s3 := s0.(intro := IntroSteps[2..], logo := Filled);
    FirstVisitFront(s0);
    assert IntroEvents == front + back;
    RunAppend(s0, front, back);
    RunThree(s3, IntroStepDone, IntroStepDone, IntroStepDone);
    PageSteps(s3);
  }

  /** The load of a first visit and the two logo steps. */
  lemma FirstVisitFront(s0: PageState)
    requires s0.intro == [] && !s0.modeAtStart
    ensures Run(s0, [Load, IntroStepDone, IntroStepDone]).0 == s0.(intro := IntroSteps[2..], logo := Filled)
  {
    var s1 := s0.(intro := IntroSteps);
    assert Step(s0, Load).0 == s1;
    LogoSteps(s1);
    RunThree(s0, Load, IntroStepDone, IntroStepDone);
  }

  /** A first visit whose whole timeline has finished. */
  lemma FirstVisitEnd(flag: Option<string>, hasLoader: bool, cs: seq<Counter>)
    ensures var s0 := Init(false, flag, hasLoader, cs);
            var r := Run(s0, IntroEvents).0;
      && r.loader == LiftedLoader(s0.loader) && r.heroShown && r.logo == Filled
      && r.counters == CountUpAll(cs) && r.intro == [] && r.flag == flag
      && r.curtain == CssDefault && r.tweens == []
  {
    FirstVisitRun(Init(false, flag, hasLoader, cs));
  }

  /** An arrival whose reveal has finished. */
  lemma ArrivalEnd(flag: Option<string>, hasLoader: bool, cs: seq<Counter>)
    ensures var s0 := Init(true, flag, hasLoader, cs);
            var r := Run(s0, [Load, CurtainDone(0)]).0;
      && r.loader == LiftedLoader(s0.loader) && r.heroShown && r.logo == Blank
      && r.counters == ArriveAll(cs) && r.intro == [] && r.flag == None
      && r.curtain == At(Above) && !r.modeClass && r.tweens == []
  {
    var s0 := Init(true, flag, hasLoader, cs);
    var s1 := Step(s0, Load).0;
    assert s1.tweens == [Reveal];
    RunOne(s0, Load);
    RunOne(s1, CurtainDone(0));
    RunAppend(s0, [Load], [CurtainDone(0)]);
    assert [Load] + [CurtainDone(0)] == [Load, CurtainDone(0)];
  }

  /** Both entry paths end in the same visible page: a first visit whose
      timeline has finished, and an arrival whose reveal has finished, show
      the loader lifted, the hero revealed and every counter at its target
      text. Only the arrival touches the flag, and it leaves it absent. */
  lemma EntryPathsAgree(flag: Option<string>, hasLoader: bool, cs: seq<Counter>)
    requires Targeted(cs)
    ensures var first := Run(Init(false, flag, hasLoader, cs), IntroEvents).0;
            var arrived := Run(Init(true, flag, hasLoader, cs), [Load, CurtainDone(0)]).0;
      && first.loader == arrived.loader
      && first.heroShown && arrived.heroShown
      && first.counters == arrived.counters
      && |arrived.counters| == |cs|
      && (forall i :: 0 <= i < |cs| ==> arrived.counters[i].text == cs[i].target.value)
      && first.flag == flag && arrived.flag == None
  {
    FirstVisitEnd(flag, hasLoader, cs);
    ArrivalEnd(flag, hasLoader, cs);
    forall i | 0 <= i < |cs|
      ensures CountUpAll(cs)[i] == ArriveAll(cs)[i]
    {
      EntryPathsAgreeOnCounter(cs[i]);
    }
  }

  /** A page restored from the back/forward cache has its curtain lifted
      once its reveal finishes, with the flag and the counters exactly as
      they were. Tweens pending at suspension keep running (see
      `RestoreKeepsPendingCover`). */
  lemma RestoreReveals(s: PageState)
    ensures var r := Run(s, [PageShow(true), CurtainDone(|s.tweens|)]).0;
      && r.curtain == At(Above) && !r.modeClass && r.heroShown
      && r.loader == LiftedLoader(s.loader)
      && r.flag == s.flag && r.counters == s.counters
      && r.tweens == s.tweens
  {
    var s1 := Step(s, PageShow(true)).0;
    assert s1.tweens[..|s.tweens|] == s.tweens;
    RunOne(s, PageShow(true));
    RunOne(s1, CurtainDone(|s.tweens|));
    RunAppend(s, [PageShow(true)], [CurtainDone(|s.tweens|)]);
    assert [PageShow(true)] + [CurtainDone(|s.tweens|)] == [PageShow(true), CurtainDone(|s.tweens|)];
  }

  /** The restore does not cancel a cover tween still pending at
      suspension: when it ends, the browser is sent to that cover's link.
      The restore's own reveal, started later, is still running then, so
      the page shows the reveal's position rather than the cover's end,
      which is all the curtain field records. */
  lemma RestoreKeepsPendingCover(s: PageState, i: nat)
    requires CoverTweensOnly(s)
    requires i < |s.tweens| && s.tweens[i].onComplete.Some?
    ensures var r := Step(s, PageShow(true)).0;
            var done := Step(r, CurtainDone(i));
      && i < |r.tweens| && r.tweens[i] == s.tweens[i]
      && done.1 == [Navigate(s.tweens[i].onComplete.value)]
      && done.0.curtain == At(Covering)
      && Reveal in done.0.tweens
  {
    var r := Step(s, PageShow(true)).0;
    assert r.tweens == s.tweens + [Reveal];
    assert r.tweens[i] == s.tweens[i];
    assert s.tweens[i] in s.tweens;
    assert r.tweens[i + 1..][|s.tweens| - i - 1] == Reveal;
  }

  /** The order of the listeners lets a flag be lost: on a page reached by
      a covered navigation, any covered click made before `load` sets the
      flag, the `load` listener then removes it, and the cover still
      navigates, so the next page starts without the flag. */
  lemma EarlyClickLosesFlag(hasLoader: bool, cs: seq<Counter>, l: Link, lookup: AnchorLookup)
    requires Classify(l).Cover?
    ensures var r := Run(Init(true, Some(FlagValue), hasLoader, cs),
                         [Click(l, lookup, Stored), Load, CurtainDone(0)]);
      && Navigate(l.href.value) in r.1
      && r.0.flag == None
  {
    var c := Click(l, lookup, Stored);
    var s0 := Init(true, Some(FlagValue), hasLoader, cs);
    EarlyClickThenLoad(s0, l, lookup);
    RunTwo(s0, c, Load);
    RunSnoc(s0, [c, Load], CurtainDone(0));
    assert [c, Load] + [CurtainDone(0)] == [c, Load, CurtainDone(0)];
  }

  /** The first two steps of `EarlyClickLosesFlag`: after the click and the
      arrival `load`, the cover is still first in line and the flag is gone. */
  lemma EarlyClickThenLoad(s0: PageState, l: Link, lookup: AnchorLookup)
    requires Classify(l).Cover? && s0.modeAtStart && s0.tweens == []
    ensures var s2 := Step(Step(s0, Click(l, lookup, Stored)).0, Load).0;
      && s2.flag == None
      && Step(s2, CurtainDone(0)).1 == [Navigate(l.href.value)]
  {
    var h := l.href.value;
    var s1 := Step(s0, Click(l, lookup, Stored)).0;
    assert s1.tweens == [CoverTween(h)] && s1.modeAtStart;
    assert Step(s1, Load) == Arrive(s1);
    var s2 := Step(s1, Load).0;
    assert s2.tweens == [CoverTween(h), Reveal] && s2.flag == None;
  }

  /** A click whose flag write throws starts no cover: on a page with no
      navigating tween, no tween that completes afterwards navigates, and
      the flag is as it was. */
  lemma BlockedClickStays(s: PageState, l: Link, lookup: AnchorLookup, i: nat)
    requires Classify(l).Cover?
    requires forall t :: t in s.tweens ==> t.onComplete.None?
    ensures var r := Run(s, [Click(l, lookup, StorageBlocked), CurtainDone(i)]);
      && NoNavigation(r.1)
      && r.0.flag == s.flag
  {
    var c := Click(l, lookup, StorageBlocked);
    assert Step(s, c) == (s, [PreventDefault, StorageError]);
    RunOne(s, c);
    RunSnoc(s, [c], CurtainDone(i));
    assert [c] + [CurtainDone(i)] == [c, CurtainDone(i)];
    if i < |s.tweens| {
      assert s.tweens[i] in s.tweens;
    }
  }
}
